=== FILE: README.md ===
# Lofi study room: chat feed, focus timer and time display, in Dafny

This project models the sequential logic of a single-page lofi study
companion: the realtime chat panel's feed reconciliation, the Pomodoro focus
timer, and the way the player and the timer print times. Everything is an
immutable datatype with pure transition functions. The history fetch and the
realtime subscription race each other; each callback runs on the single UI
thread. A run is therefore a trace of discrete events in any order.

Files and modules:

- `wrappers.dfy` (`Wrappers`): `Option`.
- `text.dfy` (`Text`): JavaScript's `trim` over the ECMAScript white-space
  set, `String(n)` for integers, `padStart` with a one-character fill,
  and, to state round trips, a decimal reader and a first-occurrence
  search (`IndexOf`) that the time and clock readers split on.
- `messages.dfy` (`Messages`): the `Message` document (lib/types.d.ts), the
  user, the document a send writes, feed events, `Reverse`, `FindById`,
  and distinct ids.
- `chat_feed.dfy` (`ChatFeed`): the current panel, components/world-chat.tsx.
  The feed is the rendered list plus the processed-id set.
- `legacy_chat.dfy` (`LegacyChat`): the earlier panel,
  app/components/world-chat.tsx. The feed is the list alone, and a send writes a
  fixed sender.
- `pomodoro.dfy` (`Pomodoro`): the focus timer of app/page.tsx.
- `time_format.dfy` (`TimeFormat`): the player's `m:ss` and the timer's
  `mm:ss`, with readers.
- `player.dfy` (`Player`): the ten-second skip clamp and the island's time
  line with its "Loading..." placeholder.

Parameters stand for what the program gets from outside. Fetch results,
write success, subscription payloads, the two random identities, the
account service's answers, the clock's ISO timestamp, and whether the
parent passed a new-message callback are all inputs.

Facts about the feed's code that the model keeps:

- A failed history fetch only logs the error (components/world-chat.tsx:78-80).
  The list keeps its contents.
- A fetch that resolves replaces the list with the fetched page
  (components/world-chat.tsx:71-72); it does not merge. So a message delivered
  live before the fetch resolves, and missing from the page, disappears. Its
  id stays processed, so no later delivery brings it back until another
  fetch returns it (`ChatFeed.LateFetchHidesLiveMessage`,
  `ChatFeed.HiddenStaysHidden`).
- `handleSendMessage` does not truncate the draft. Only the input's
  `maxLength={500}` limits it (components/world-chat.tsx:200).
- The only reaction to a new message from someone else is the call to the
  parent's callback. The panel keeps no unread count of its own.

## Model

| member | source | states |
|---|---|---|
| ChatFeed.Load | components/world-chat.tsx:71-77 | the list becomes exactly the fetched page turned oldest-first (a replacement), and every fetched id joins the processed set |
| ChatFeed.Deliver | components/world-chat.tsx:89-115 | a create event with an id neither processed nor listed appends the payload at the tail; a create event marks the id processed; the callback gets the payload exactly when it was appended, came from another sender and a callback exists |
| ChatFeed.IgnoredDelivery | components/world-chat.tsx:89-96 | a non-create event, or an already processed id, changes neither list nor set and notifies nobody |
| ChatFeed.RedeliveryIsIgnored | components/world-chat.tsx:93-99 | delivering the same event a second time changes nothing and notifies nobody |
| ChatFeed.StepKeepsValid | components/world-chat.tsx:75-114 | every event keeps listed ids inside the processed set and free of repeats, given distinct fetched ids |
| ChatFeed.RunKeepsValid | components/world-chat.tsx:71-115 | over any interleaving of fetch results and deliveries, no id is listed twice and every listed id is processed |
| ChatFeed.NotifiesEachNewIdOnce | components/world-chat.tsx:74-112 | over any trace the processed set only grows, fetched history never notifies, and no id is handed to the callback twice |
| ChatFeed.NotifiesAppendedFromOthers | components/world-chat.tsx:101-114 | without a fetch, the list only grows at the tail and the callback gets exactly the appended messages from other senders, in arrival order |
| ChatFeed.OwnMessagesNeverNotify | components/world-chat.tsx:108-112 | no message of the current user is ever handed to the callback, and nothing is without a callback |
| ChatFeed.AgreesWithLegacy | components/world-chat.tsx:93-114 | from a feed whose processed set equals its listed ids (a fresh panel right after its fetch), as long as only deliveries follow, that equality holds and the list equals the earlier panel's list |
| ChatFeed.LateFetchHidesLiveMessage | components/world-chat.tsx:71-99 | a live message missing from a fetch that resolves later leaves the list; its id stays processed, and no fetch-free continuation brings it back or notifies it |
| ChatFeed.HiddenStaysHidden | components/world-chat.tsx:93-114 | an id that is processed but not listed stays so under any fetch-free trace, and is never handed to the callback |
| ChatFeed.HistoryThenLiveScenario | components/world-chat.tsx:71-115 | a fetched message redelivered stays single; a new message from someone else is appended and notified once |
| ChatFeed.Send | components/world-chat.tsx:133-148 | no write for a blank draft or no user; otherwise the user's id and name with the trimmed draft are written; the draft changes only by being cleared after a successful write |
| ChatFeed.SentContentIsTrimmed | components/world-chat.tsx:135-141 | the written content is one non-blank string with no white space at either end |
| ChatFeed.InitializeUser | components/world-chat.tsx:28-57 | a stored identity is used unchanged; with none, the generated one is used and saved; any failure uses an unsaved fallback |
| ChatFeed.IdentitySurvivesReload | components/world-chat.tsx:31-41 | the identity saved at first start-up is the one read back at the next |
| LegacyChat.Load | app/components/world-chat.tsx:74 | the list becomes exactly the fetched page turned oldest-first |
| LegacyChat.Deliver | app/components/world-chat.tsx:86-96 | the list either stays or gains the payload at the tail, and it gains it exactly for a create event whose id is not listed |
| LegacyChat.RunKeepsDistinct | app/components/world-chat.tsx:74-95 | over any interleaving, given distinct fetched ids, no id is listed twice |
| LegacyChat.DeliveriesOnlyAppend | app/components/world-chat.tsx:89-95 | without a fetch result, every earlier message keeps its position |
| LegacyChat.Send | app/components/world-chat.tsx:110-125 | no write for a blank draft or no user; otherwise the trimmed draft under sender 5446767 / "Justine"; the draft is cleared only after a successful write |
| LegacyChat.SendIgnoresUser | app/components/world-chat.tsx:115-119 | the written document is the same whoever the user is |
| LegacyChat.Authenticate | app/components/world-chat.tsx:42-58 | an open session's account is used, with "Anonymous" for a blank name; otherwise the new anonymous account with its own name kept, or "Guest-" and the first four characters of its id for a blank one; no user only when both calls fail; the name is never blank |
| LegacyChat.GuestName | app/components/world-chat.tsx:51 | a nameless anonymous account is called "Guest-" followed by at most the first four characters of its id |
| Messages.Reverse | components/world-chat.tsx:71 | the element at each position is the one at the mirrored position |
| Messages.FindById | components/world-chat.tsx:103 | finds a message with the id exactly when one is listed, and what it finds is listed and carries the id |
| Messages.FindByIdIsFirst | components/world-chat.tsx:103 | the message found is the first listed message with the id |
| Text.Trim | components/world-chat.tsx:135 | the result is empty exactly for an all-white-space draft, and otherwise neither starts nor ends with white space |
| Text.TrimIsInfix | components/world-chat.tsx:135 | the trimmed text is the slice of the draft that starts at its first non-white-space character, with only white space before and after it |
| Text.TrimIdempotent | components/world-chat.tsx:135-141 | trimming an already trimmed draft changes nothing |
| Text.NatToStringRoundTrip | app/page.tsx:434 | the decimal form of a natural number reads back as the number |
| Text.PadStart | app/page.tsx:434 | the result is at least the width, ends with the input and is fill before it |
| Text.IntToString | app/page.tsx:434 | `String(i)` is all digits exactly for a non-negative integer and starts with '-' exactly for a negative one, with no leading zero in either case |
| Text.IntToStringRoundTrip | app/page.tsx:434 | `String(i)` reads back as `i`, negative integers included |
| Pomodoro.Tick | app/page.tsx:157-183 | with seconds left, one second less; at zero seconds, a borrowed minute when the captured minutes are positive; otherwise stopped in the other mode at 5:00 or 25:00, by the captured mode |
| Pomodoro.TickCountsDown | app/page.tsx:157-162 | with captured equal to current, a tick before the end takes exactly one second off and keeps seconds in 0..59, mode and running |
| Pomodoro.TickAtZeroSwitches | app/page.tsx:164-182 | at 0:00 a tick stops the timer and switches work to break at 5:00 or break to work at 25:00 |
| Pomodoro.ToggleTimer | app/page.tsx:145-156 | pausing clears the interval and keeps the reading; starting sets running and captures the current minutes and mode |
| Pomodoro.PauseKeepsReading | app/page.tsx:146-152 | pausing changes neither minutes, seconds nor mode |
| Pomodoro.ResetTimer | app/page.tsx:189-198 | reset leaves no interval and a stopped work timer at 25:00 |
| Pomodoro.ResetIdempotent | app/page.tsx:189-198 | reset gives the same clock from every state, including after a reset |
| Pomodoro.Elapse | app/page.tsx:156-185 | a second runs the captured tick when an interval exists, and the interval survives exactly while the timer still runs, unchanged |
| Pomodoro.RunStaysCoherent | app/page.tsx:145-198 | under any buttons and seconds, an interval exists exactly while running, captured the current mode, and seconds stay non-negative |
| Pomodoro.StaleRunNeverEnds | app/page.tsx:156-162 | as written, with positive captured minutes the run never ends and the time left drops one second per second below zero |
| Pomodoro.StaleRunGoesNegative | app/page.tsx:156-162 | as written, a focus session left running for 1501 seconds shows minute -1 and second 59, still running |
| Pomodoro.TickLive | app/page.tsx:157-183 | reading live values, a tick before 0:00 takes one second off a well-formed reading, and at 0:00 switches mode |
| Pomodoro.LiveRunEnds | app/page.tsx:157-183 | reading live values, a session counts down one second per tick and ends one tick after 0:00, stopped in the other mode at full length |
| Pomodoro.LiveRunStaysWellFormed | app/page.tsx:145-198 | reading live values, the timer never shows negative minutes or seconds outside 0..59, whatever the button presses |
| Pomodoro.LiveClockFollowsTicks | app/page.tsx:156-185 | on the corrected clock, seconds with no button pressed move the timer exactly as the same number of live ticks, keeping the clock coherent |
| Pomodoro.LiveClockSessionEnds | app/page.tsx:156-185 | on the corrected clock, a started session counts down one second per second and one second after 0:00 has stopped, dropped its interval and shows the other mode at full length |
| TimeFormat.FormatTime | app/components/dynamic-island.tsx:27-31 | the result is the unpadded decimal minutes, one ':', then exactly two digits; it starts with '0' only below one minute |
| TimeFormat.FormatTimeFields | app/components/dynamic-island.tsx:28-30 | the minutes field reads back as the whole minutes and the seconds field as the remaining seconds |
| TimeFormat.FormatTimeRoundTrip | app/components/dynamic-island.tsx:27-31 | the printed form reads back as the number of seconds |
| TimeFormat.FormatTimeInjective | app/components/dynamic-island.tsx:27-31 | different times print differently |
| TimeFormat.ParseTimeOnlyReadsFormatTime | app/components/dynamic-island.tsx:27-31 | `m:ss` has one spelling: any string that reads back as n seconds is exactly the printed form of n, so no padded minutes or other digits can stand in for it |
| TimeFormat.ClockDisplay | app/page.tsx:434 | the display is `String(m)` and `String(s)`, each zero-padded to at least two characters and no further, joined by a ':' right after the minutes field |
| TimeFormat.ClockFieldsReadBack | app/page.tsx:434 | both fields of the display read back as the integers shown, negative ones included |
| TimeFormat.ClockDisplayRoundTrip | app/page.tsx:434 | for non-negative minutes and seconds, the padded display reads back as both numbers |
| TimeFormat.ClockDisplayFixedWidth | app/page.tsx:434 | for 0–99 minutes and 0–59 seconds the display is five characters with ':' at index 2 (negative minutes are covered by `NegativeMinutesDisplay`) |
| TimeFormat.NegativeMinutesDisplay | app/page.tsx:434 | minute -1 and second 59 display as "-1:59", which does not read back as a time |
| Player.SkipForward | app/page.tsx:132-136 | ten seconds later or the track's length, whichever is smaller |
| Player.SkipBack | app/page.tsx:138-142 | ten seconds earlier or zero, whichever is larger |
| Player.SkipsStayInTrack | app/page.tsx:134-140 | a position within the track stays within it under either skip, moving the right way |
| Player.SkipsUndoEachOther | app/page.tsx:134-140 | away from the ends, a skip back undoes a skip forward and the other way round |
| Player.TrackLabel | app/components/dynamic-island.tsx:198-204 | the time line is "Loading..." exactly when the length is zero; the characters it shows otherwise are fixed by `TrackLabelOnlySpelling` |
| Player.TrackLabelRoundTrip | app/components/dynamic-island.tsx:198-204 | with a known length, the time line reads back as the position and the length |
| Player.TrackLabelOnlySpelling | app/components/dynamic-island.tsx:200 | with a known length, the time line is, character for character, `formatTime(currentTime) / formatTime(duration)`: it is the only string that reads back as those two times |

## Findings

| source | as written | input that shows it | evidently intended | confidence | as-written member | corrected member |
|---|---|---|---|---|---|---|
| app/page.tsx:156-162 | the interval callback tests the minutes captured when the timer started, so the borrow branch is always taken once they were positive | start a 25:00 focus session and leave it running for 1501 seconds: the display shows -1:59 and the timer keeps running | test the current minutes, so the session ends at 0:00 and switches to a 5:00 break | high (not executed) | Pomodoro.StaleRunGoesNegative | Pomodoro.LiveClockSessionEnds |

`Pomodoro.Elapse` and `Pomodoro.Run` model the code as written.
`Pomodoro.ElapseLive` and `Pomodoro.RunLive` use the corrected tick
(`Pomodoro.TickLive`). On the corrected clock a session ends at 0:00
(`Pomodoro.LiveClockSessionEnds`, by way of `Pomodoro.LiveRunEnds` and
`Pomodoro.LiveClockFollowsTicks`), and the reading stays well formed under
any button presses (`Pomodoro.LiveRunStaysWellFormed`).

## Left out

- Rendering, animation, scrolling, styling, and the view-only components
  (notification centre, toasts, option button, timer island). The timer
  island prints the same padded `mm:ss` as the page.
- Backend SDK calls (list, create, subscribe, account, configuration). Their
  results are model inputs. Unsubscribing on teardown is not modelled.
- Local storage and `JSON.parse`. They become the `Stored` input of
  `ChatFeed.InitializeUser`. A parsed value that is not a well-formed identity
  is not modelled.
- Random name and id generation (lib/functions.ts). The draws are parameters.
  That file also imports word lists that lib/constant.ts does not define.
- Interval timing and drift, and async interleaving as real concurrency.
  Ticks and callbacks are discrete events.
- Floating-point work: volume scaling, the progress percentage, and
  fractional audio positions. `Player.SkipForward` and `Player.SkipBack`
  work on whole seconds. The audio element's seconds are fractional.
- Locale time formatting of message timestamps.
- Whatever the parent does with the new-message callback: the model records
  which messages are handed to it, in order.
- TimeFormat.FormatTime: only defined for non-negative whole seconds. The
  page floors the audio element's times before formatting.
- LegacyChat.Prefix: counts Unicode scalar values, while `substring(0, 4)`
  counts UTF-16 code units. The two differ only for ids with characters
  outside the Basic Multilingual Plane; account ids are ASCII.

=== FILE: chat_feed.dfy ===
/**
 The current chat panel (components/world-chat.tsx). Its feed is the
 rendered list together with the set of ids it has processed. The history
 fetch and the realtime subscription race each other; each resolution or
 callback is one atomic event of the UI thread, so a run of the panel is a
 trace of events in any order.
 */
module ChatFeed {
  import opened Wrappers
  import opened Text
  import opened Messages
  import LegacyChat

  /** The rendered list and the processed-id set, which persists for the
      life of the panel. */
  datatype Feed = Feed(messages: seq<Message>, processed: set<string>)

  /** The state the panel mounts with. */
  const Empty: Feed := Feed([], {})

  /** What the subscription callback closes over: the current user's id and
      whether the parent supplied the new-message callback. */
  datatype Viewer = Viewer(userId: string, hasCallback: bool)

  /** An event's effect: the new feed and the messages handed to the
      new-message callback, in order. */
  datatype Outcome = Outcome(feed: Feed, notified: seq<Message>)

  /** The feed invariant: every listed id has been processed, and no id is
      listed twice. */
  ghost predicate Valid(f: Feed) {
    Ids(f.messages) <= f.processed && DistinctIds(f.messages)
  }

  /** History fetch resolved: the list is replaced by the documents turned
      around to oldest-first, and every fetched id is marked processed. */
  function Load(f: Feed, docs: seq<Message>): (r: Feed)
    ensures |r.messages| == |docs|
    ensures forall i :: 0 <= i < |docs| ==> r.messages[i] == docs[|docs| - 1 - i]
    ensures r.processed == f.processed + Ids(docs)
  {
    ReverseIds(docs);
    Feed(Reverse(docs), f.processed + Ids(docs))
  }

  /** Whether a delivery appends its payload: a create event whose id has
      been neither processed nor listed. */
  predicate Appends(f: Feed, events: seq<string>, m: Message) {
    CreateEvent in events && m.id !in f.processed && m.id !in Ids(f.messages)
  }

  /** One realtime callback. A create event with an unprocessed id marks the
      id processed; the payload is then appended unless the list already
      holds the id, and an appended message from someone else is handed to
      the callback when there is one. */
  function Deliver(f: Feed, events: seq<string>, m: Message, v: Viewer): (r: Outcome)
    ensures r.feed.messages == (if Appends(f, events, m) then f.messages + [m] else f.messages)
    ensures r.feed.processed ==
      (if CreateEvent in events then f.processed + {m.id} else f.processed)
    ensures r.notified != [] <==> Appends(f, events, m) && m.senderId != v.userId && v.hasCallback
    ensures r.notified == [] || r.notified == [m]
  {
    if CreateEvent !in events then Outcome(f, [])
    else if m.id in f.processed then Outcome(f, [])
    else
      var processed := f.processed + {m.id};
      if FindById(f.messages, m.id).Some? then
        Outcome(Feed(f.messages, processed), [])
      else
        var notified := if m.senderId != v.userId && v.hasCallback then [m] else [];
        Outcome(Feed(f.messages + [m], processed), notified)
  }

  function Step(f: Feed, e: FeedEvent, v: Viewer): Outcome {
    match e
    case Fetched(docs) => Outcome(Load(f, docs), [])
    case FetchFailed => Outcome(f, [])
    case Delivered(events, m) => Deliver(f, events, m, v)
  }

  /** The feed after a trace of events, and every callback invocation. */
  function Run(f: Feed, trace: seq<FeedEvent>, v: Viewer): Outcome
    decreases |trace|
  {
    if trace == [] then Outcome(f, [])
    else
      var first := Step(f, trace[0], v);
      var rest := Run(first.feed, trace[1..], v);
      Outcome(rest.feed, first.notified + rest.notified)
  }

  // ---------------------------------------------------------------------
  // single events
  // ---------------------------------------------------------------------

  /** An event that is not a create event, or whose id has been processed,
      changes nothing and notifies nobody. */
  lemma IgnoredDelivery(f: Feed, events: seq<string>, m: Message, v: Viewer)
    requires CreateEvent !in events || m.id in f.processed
    ensures Deliver(f, events, m, v) == Outcome(f, [])
  {
  }

  /** Delivering the same create event twice is delivering it once. */
  lemma RedeliveryIsIgnored(f: Feed, events: seq<string>, m: Message, v: Viewer)
    ensures var once := Deliver(f, events, m, v);
      Deliver(once.feed, events, m, v) == Outcome(once.feed, [])
  {
  }

  /** Every event keeps the feed valid, given that a fetch returns distinct
      ids. */
  lemma StepKeepsValid(f: Feed, e: FeedEvent, v: Viewer)
    requires Valid(f)
    requires e.Fetched? ==> DistinctIds(e.documents)
    ensures Valid(Step(f, e, v).feed)
  {
    match e
    case Fetched(docs) =>
      ReverseIds(docs);
    case FetchFailed =>
    case Delivered(events, m) =>
      if Appends(f, events, m) {
        AppendFreshDistinct(f.messages, m);
      }
  }

  // ---------------------------------------------------------------------
  // traces
  // ---------------------------------------------------------------------

  /** Whatever the interleaving of fetch results and deliveries, every
      listed id stays processed and no id is ever listed twice. */
  lemma {:induction false} RunKeepsValid(f: Feed, trace: seq<FeedEvent>, v: Viewer)
    requires Valid(f) && FetchesDistinct(trace)
    ensures Valid(Run(f, trace, v).feed)
    decreases |trace|
  {
    if trace != [] {
      StepKeepsValid(f, trace[0], v);
      FetchesDistinctTail(trace);
      RunKeepsValid(Step(f, trace[0], v).feed, trace[1..], v);
    }
  }

  /** One event: the processed set only grows, and a notified id was
      unprocessed before and is processed after. */
  lemma StepNotifiesNewIds(f: Feed, e: FeedEvent, v: Viewer)
    ensures var r := Step(f, e, v);
      && f.processed <= r.feed.processed
      && Ids(r.notified) <= r.feed.processed
      && Ids(r.notified) !! f.processed
      && DistinctIds(r.notified)
  {
    var r := Step(f, e, v);
    assert r.notified == [] || (r.notified == [e.payload]
      && e.payload.id in r.feed.processed && e.payload.id !in f.processed);
  }

  lemma ConcatDisjointIds(a: seq<Message>, b: seq<Message>)
    requires DistinctIds(a) && DistinctIds(b) && Ids(a) !! Ids(b)
    ensures Ids(a + b) == Ids(a) + Ids(b) && DistinctIds(a + b)
  {
    var ab := a + b;
    assert forall m :: m in ab <==> m in a || m in b;
    forall i, j | 0 <= i < j < |ab| ensures ab[i].id != ab[j].id {
      if j < |a| {
        assert ab[i] == a[i] && ab[j] == a[j];
      } else if i < |a| {
        assert ab[i] == a[i] && ab[j] == b[j - |a|];
        assert ab[i].id in Ids(a) && ab[j].id in Ids(b);
      } else {
        assert ab[i] == b[i - |a|] && ab[j] == b[j - |a|];
      }
    }
  }

  /** The processed set only grows, and every id handed to the callback was
      unprocessed before the trace, is processed after it, and is handed over
      once: history never notifies, and nothing notifies twice. */
  lemma {:induction false} NotifiesEachNewIdOnce(f: Feed, trace: seq<FeedEvent>, v: Viewer)
    ensures var r := Run(f, trace, v);
      && f.processed <= r.feed.processed
      && Ids(r.notified) <= r.feed.processed
      && Ids(r.notified) !! f.processed
      && DistinctIds(r.notified)
    decreases |trace|
  {
    if trace != [] {
      var first := Step(f, trace[0], v);
      var rest := Run(first.feed, trace[1..], v);
      StepNotifiesNewIds(f, trace[0], v);
      NotifiesEachNewIdOnce(first.feed, trace[1..], v);
      ConcatDisjointIds(first.notified, rest.notified);
    }
  }

  /** The messages of a list sent by someone other than `me`, in order. */
  function FromOthers(ms: seq<Message>, me: string): (r: seq<Message>)
    ensures |r| <= |ms|
    ensures forall m :: m in r <==> m in ms && m.senderId != me
    decreases |ms|
  {
    if ms == [] then []
    else
      assert forall m :: m in ms <==> m == ms[0] || m in ms[1..];
      (if ms[0].senderId != me then [ms[0]] else []) + FromOthers(ms[1..], me)
  }

  lemma {:induction false} FromOthersAppend(a: seq<Message>, b: seq<Message>, me: string)
    ensures FromOthers(a + b, me) == FromOthers(a, me) + FromOthers(b, me)
    decreases |a|
  {
    if a != [] {
      assert (a + b)[1..] == a[1..] + b;
      FromOthersAppend(a[1..], b, me);
    } else {
      assert a + b == b;
    }
  }

  /** A delivery or a failed fetch appends zero or one message, and hands
      the callback exactly the appended ones from others. */
  lemma StepAppendsFromOthers(f: Feed, e: FeedEvent, v: Viewer)
    requires !e.Fetched?
    ensures var r := Step(f, e, v);
      && |f.messages| <= |r.feed.messages|
      && r.feed.messages == f.messages + r.feed.messages[|f.messages|..]
      && r.notified ==
         (if v.hasCallback then FromOthers(r.feed.messages[|f.messages|..], v.userId) else [])
  {
    var r := Step(f, e, v);
    var added := r.feed.messages[|f.messages|..];
    assert r.feed.messages == f.messages + added;
    if added != [] {
      assert added == [e.payload];
      assert FromOthers(added, v.userId) ==
        (if e.payload.senderId != v.userId then [e.payload] else []) + FromOthers([], v.userId);
    }
  }

  lemma SplitAfterPrefix(base: seq<Message>, mid: seq<Message>, whole: seq<Message>)
    requires |base + mid| <= |whole| && whole[..|base + mid|] == base + mid
    ensures |base| <= |whole| && whole[..|base|] == base
    ensures whole[|base|..] == mid + whole[|base + mid|..]
  {
  }

  /** Without a fetch result, the list only grows at the tail, and the
      callback is invoked exactly once for each appended message from
      someone else, in arrival order, and never without a callback. */
  lemma {:induction false} NotifiesAppendedFromOthers(f: Feed, trace: seq<FeedEvent>, v: Viewer)
    requires NoFetch(trace)
    ensures var r := Run(f, trace, v);
      && |f.messages| <= |r.feed.messages|
      && r.feed.messages[..|f.messages|] == f.messages
      && r.notified ==
         (if v.hasCallback then FromOthers(r.feed.messages[|f.messages|..], v.userId) else [])
    decreases |trace|
  {
    if trace != [] {
      NoFetchTail(trace);
      var first := Step(f, trace[0], v);
      var rest := Run(first.feed, trace[1..], v);
      StepAppendsFromOthers(f, trace[0], v);
      NotifiesAppendedFromOthers(first.feed, trace[1..], v);
      var added := first.feed.messages[|f.messages|..];
      SplitAfterPrefix(f.messages, added, rest.feed.messages);
      FromOthersAppend(added, rest.feed.messages[|first.feed.messages|..], v.userId);
    }
  }

  /** A message the user sent comes back through the subscription like any
      other but is never handed to the callback. */
  lemma OwnMessagesNeverNotify(f: Feed, trace: seq<FeedEvent>, v: Viewer)
    ensures forall m :: m in Run(f, trace, v).notified ==> m.senderId != v.userId
    ensures !v.hasCallback ==> Run(f, trace, v).notified == []
    decreases |trace|
  {
    if trace != [] {
      OwnMessagesNeverNotify(Step(f, trace[0], v).feed, trace[1..], v);
    }
  }

  /** Right after a fetch into a fresh panel, and as long as only deliveries
      follow, the processed set and the list agree on ids, and the current
      panel shows exactly what the earlier panel would show. */
  lemma {:induction false} AgreesWithLegacy(f: Feed, trace: seq<FeedEvent>, v: Viewer)
    requires f.processed == Ids(f.messages)
    requires NoFetch(trace)
    ensures Run(f, trace, v).feed.processed == Ids(Run(f, trace, v).feed.messages)
    ensures Run(f, trace, v).feed.messages == LegacyChat.Run(f.messages, trace)
    decreases |trace|
  {
    if trace != [] {
      NoFetchTail(trace);
      var first := Step(f, trace[0], v);
      if trace[0].Delivered? {
        var m := trace[0].payload;
        if Appends(f, trace[0].events, m) {
          assert Ids(f.messages + [m]) == Ids(f.messages) + {m.id} by {
            assert forall x :: x in f.messages + [m] <==> x in f.messages || x == m;
          }
        }
      }
      AgreesWithLegacy(first.feed, trace[1..], v);
    }
  }

  /** An id that is processed but not listed stays so as long as no fetch
      resolves: no delivery brings it back, and it is never handed to the
      callback. */
  lemma {:induction false} HiddenStaysHidden(f: Feed, id: string, trace: seq<FeedEvent>, v: Viewer)
    requires id in f.processed && id !in Ids(f.messages)
    requires NoFetch(trace)
    ensures var r := Run(f, trace, v);
      id in r.feed.processed && id !in Ids(r.feed.messages)
      && forall m :: m in r.notified ==> m.id != id
    decreases |trace|
  {
    if trace != [] {
      NoFetchTail(trace);
      var first := Step(f, trace[0], v);
      if trace[0].Delivered? {
        var m := trace[0].payload;
        if Appends(f, trace[0].events, m) {
          assert Ids(f.messages + [m]) == Ids(f.messages) + {m.id} by {
            assert forall x :: x in f.messages + [m] <==> x in f.messages || x == m;
          }
        }
      }
      HiddenStaysHidden(first.feed, id, trace[1..], v);
    }
  }

  /** The race between the fetch and the subscription: a message delivered
      before the fetch resolves, and absent from what the fetch returned, is
      dropped from the list by the replacing load, while its id stays
      processed. Until another fetch returns it, no redelivery brings it
      back and it is never handed to the callback again. */
  lemma LateFetchHidesLiveMessage(f: Feed, m: Message, docs: seq<Message>,
                                  later: seq<FeedEvent>, v: Viewer)
    requires m.id !in f.processed && m.id !in Ids(docs)
    requires NoFetch(later)
    ensures var race := [Delivered([CreateEvent], m), Fetched(docs)];
      var g := Run(f, race, v);
      var r := Run(g.feed, later, v);
      && m.id in g.feed.processed && m.id !in Ids(g.feed.messages)
      && Run(f, race + later, v) == Outcome(r.feed, g.notified + r.notified)
      && m.id in r.feed.processed && m.id !in Ids(r.feed.messages)
      && forall x :: x in r.notified ==> x.id != m.id
  {
    var race := [Delivered([CreateEvent], m), Fetched(docs)];
    var afterLive := Deliver(f, [CreateEvent], m, v).feed;
    var afterFetch := Load(afterLive, docs);
    assert race[0] == Delivered([CreateEvent], m) && race[1..] == [Fetched(docs)];
    assert Run(afterLive, [Fetched(docs)], v).feed == afterFetch by {
      assert [Fetched(docs)][1..] == [];
    }
    assert Run(f, race, v).feed == afterFetch;
    ReverseIds(docs);
    assert m.id in afterFetch.processed && m.id !in Ids(afterFetch.messages);
    RunConcat(f, race, later, v);
    HiddenStaysHidden(afterFetch, m.id, later, v);
  }

  /** Running two traces one after the other is running their
      concatenation: the second continues from the feed the first leaves,
      and the callback sees the first's messages, then the second's. */
  lemma {:induction false} RunConcat(f: Feed, a: seq<FeedEvent>, b: seq<FeedEvent>, v: Viewer)
    ensures var first := Run(f, a, v); var rest := Run(first.feed, b, v);
      Run(f, a + b, v) == Outcome(rest.feed, first.notified + rest.notified)
    decreases |a|
  {
    if a == [] {
      assert a + b == b;
    } else {
      var step := Step(f, a[0], v);
      RunFirst(f, a, v);
      RunFirst(f, a + b, v);
      assert (a + b)[0] == a[0] && (a + b)[1..] == a[1..] + b;
      RunConcat(step.feed, a[1..], b, v);
      AppendAssoc(step.notified, Run(step.feed, a[1..], v).notified,
                  Run(Run(f, a, v).feed, b, v).notified);
    }
  }

  /** One unfolding of `Run`. */
  lemma RunFirst(f: Feed, t: seq<FeedEvent>, v: Viewer)
    requires t != []
    ensures var step := Step(f, t[0], v); var rest := Run(step.feed, t[1..], v);
      Run(f, t, v) == Outcome(rest.feed, step.notified + rest.notified)
  {
  }

  lemma AppendAssoc(x: seq<Message>, y: seq<Message>, z: seq<Message>)
    ensures x + (y + z) == (x + y) + z
  {
  }

  /** Duplicate delivery of fetched history keeps one copy; a new message
      from someone else is appended and handed to the callback once. */
  lemma HistoryThenLiveScenario(m1: Message, m2: Message, v: Viewer)
    requires m1.id != m2.id && m2.senderId != v.userId && v.hasCallback
    ensures var r := Run(Empty, [Fetched([m1]), Delivered([CreateEvent], m1),
                                Delivered([CreateEvent], m2)], v);
      r.feed.messages == [m1, m2] && r.notified == [m2]
  {
    var trace := [Fetched([m1]), Delivered([CreateEvent], m1), Delivered([CreateEvent], m2)];
    var loaded := Load(Empty, [m1]);
    assert loaded.messages == [m1];
    assert m1.id in loaded.processed && m2.id !in loaded.processed;
    assert Ids(loaded.messages) == {m1.id};
    var second := Deliver(loaded, [CreateEvent], m2, v);
    assert second.feed.messages == [m1, m2] && second.notified == [m2];
    assert trace[1..] == [Delivered([CreateEvent], m1), Delivered([CreateEvent], m2)];
    assert trace[1..][1..] == [Delivered([CreateEvent], m2)];
    assert trace[1..][1..][1..] == [];
    assert Run(second.feed, trace[1..][1..][1..], v) == Outcome(second.feed, []);
    assert Run(loaded, trace[1..][1..], v) == second;
    assert Deliver(loaded, [CreateEvent], m1, v) == Outcome(loaded, []);
    assert Run(loaded, trace[1..], v) == second;
  }

  // ---------------------------------------------------------------------
  // send and identity
  // ---------------------------------------------------------------------

  /** Send: nothing is written for a blank draft or when there is no user;
      otherwise the trimmed draft is written under the user's id and name,
      and the draft is cleared only when the write succeeded. The list is
      not touched: the message comes back through the subscription. */
  function Send(draft: string, user: Option<User>, now: string, writeSucceeds: bool): (r: SendOutcome)
    ensures r.write.Some? <==> CanSend(draft, user)
    ensures r.write.Some? ==>
      r.write.value == NewDocument(TextId(user.value.id), user.value.name, [Trim(draft)], now)
    ensures r.draft != draft ==> r.write.Some? && writeSucceeds
    ensures r.write.Some? && writeSucceeds ==> r.draft == ""
  {
    if !CanSend(draft, user) then SendOutcome(draft, None)
    else
      var u := user.value;
      var doc := NewDocument(TextId(u.id), u.name, [Trim(draft)], now);
      SendOutcome(if writeSucceeds then "" else draft, Some(doc))
  }

  /** The written content is never blank and carries no surrounding white
      space. */
  lemma SentContentIsTrimmed(draft: string, user: Option<User>, now: string, ok: bool)
    requires Send(draft, user, now, ok).write.Some?
    ensures var c := Send(draft, user, now, ok).write.value.messageContent;
      |c| == 1 && c[0] != [] && !IsSpace(c[0][0]) && !IsSpace(c[0][|c[0]| - 1])
  {
  }

  /** What local storage offers at start-up: reading throws, there is no
      stored identity (and whether saving one will succeed), a stored
      identity that parses, or one that does not parse. */
  datatype Stored = Unavailable | Absent(writable: bool) | Present(user: User) | Corrupt

  /** The identity the panel uses and the one it saved, if any. */
  datatype Identity = Identity(user: User, saved: Option<User>)

  /** Start-up identity: a stored one is used as is; with none, the freshly
      generated one is used and saved; any failure falls back to another
      generated identity that is not saved. `generated` and `fallback` stand
      for the two random draws. */
  function InitializeUser(stored: Stored, generated: User, fallback: User): (r: Identity)
    ensures stored.Present? ==> r == Identity(stored.user, None)
    ensures r.saved.Some? <==> stored == Absent(true)
    ensures r.saved.Some? ==> r.saved.value == r.user && r.user == generated
    ensures !stored.Present? && r.saved.None? ==> r.user == fallback
  {
    match stored
    case Present(u) => Identity(u, None)
    case Absent(writable) =>
      if writable then Identity(generated, Some(generated)) else Identity(fallback, None)
    case Unavailable => Identity(fallback, None)
    case Corrupt => Identity(fallback, None)
  }

  /** A saved identity survives a reload: the next start-up reads it back. */
  lemma IdentitySurvivesReload(generated: User, fallback: User, g2: User, f2: User)
    ensures var first := InitializeUser(Absent(true), generated, fallback);
      InitializeUser(Present(first.saved.value), g2, f2).user == first.user
  {
  }
}

=== FILE: legacy_chat.dfy ===
/**
 The earlier chat panel (app/components/world-chat.tsx). Its feed is the
 rendered list alone: there is no set of processed ids, and a delivered
 message is appended unless the list already holds its id. Sends write a
 fixed sender, and the user comes from the account service, with a
 generated guest name for a fresh anonymous session.
 */
module LegacyChat {
  import opened Wrappers
  import opened Text
  import opened Messages

  /** History fetch resolved: the list becomes the documents, newest-first
      as fetched, turned around to oldest-first. Nothing is merged. */
  function Load(docs: seq<Message>): (r: seq<Message>)
    ensures |r| == |docs|
    ensures forall i :: 0 <= i < |docs| ==> r[i] == docs[|docs| - 1 - i]
  {
    Reverse(docs)
  }

  /** One realtime callback: only a create event touches the list, and then
      the payload goes at the tail exactly when its id is not yet listed. */
  function Deliver(ms: seq<Message>, events: seq<string>, m: Message): (r: seq<Message>)
    ensures r == ms || r == ms + [m]
    ensures |r| == |ms| + 1 <==> CreateEvent in events && m.id !in Ids(ms)
  {
    if CreateEvent in events then
      if FindById(ms, m.id).None? then ms + [m] else ms
    else
      ms
  }

  function Step(ms: seq<Message>, e: FeedEvent): seq<Message> {
    match e
    case Fetched(docs) => Load(docs)
    case FetchFailed => ms
    case Delivered(events, m) => Deliver(ms, events, m)
  }

  /** The list after a trace of events, in order. */
  function Run(ms: seq<Message>, trace: seq<FeedEvent>): seq<Message>
    decreases |trace|
  {
    if trace == [] then ms else Run(Step(ms, trace[0]), trace[1..])
  }

  /** One event keeps the list free of repeated ids, provided a fetch
      returned distinct ids. */
  lemma StepKeepsDistinct(ms: seq<Message>, e: FeedEvent)
    requires DistinctIds(ms)
    requires e.Fetched? ==> DistinctIds(e.documents)
    ensures DistinctIds(Step(ms, e))
  {
    match e
    case Fetched(docs) =>
      ReverseIds(docs);
    case FetchFailed =>
    case Delivered(events, m) =>
      if Step(ms, e) != ms {
        AppendFreshDistinct(ms, m);
      }
  }

  /** Whatever the interleaving of fetch results and deliveries, the list
      never holds two messages with the same id. */
  lemma {:induction false} RunKeepsDistinct(ms: seq<Message>, trace: seq<FeedEvent>)
    requires DistinctIds(ms) && FetchesDistinct(trace)
    ensures DistinctIds(Run(ms, trace))
    decreases |trace|
  {
    if trace != [] {
      StepKeepsDistinct(ms, trace[0]);
      FetchesDistinctTail(trace);
      RunKeepsDistinct(Step(ms, trace[0]), trace[1..]);
    }
  }

  /** Without a fetch result, deliveries only append: every earlier message
      keeps its position. */
  lemma {:induction false} DeliveriesOnlyAppend(ms: seq<Message>, trace: seq<FeedEvent>)
    requires NoFetch(trace)
    ensures |ms| <= |Run(ms, trace)| && Run(ms, trace)[..|ms|] == ms
    decreases |trace|
  {
    if trace != [] {
      NoFetchTail(trace);
      var next := Step(ms, trace[0]);
      DeliveriesOnlyAppend(next, trace[1..]);
      assert next[..|ms|] == ms;
    }
  }

  /** The sender id the earlier panel writes for every message. */
  const FixedSenderId: int := 5446767
  /** The sender name the earlier panel writes for every message. */
  const FixedSenderName: string := "Justine"

  /** Send: nothing is written for a blank draft or when there is no user;
      otherwise the trimmed draft is written under the fixed sender, and the
      draft is cleared only when the write succeeded. */
  function Send(draft: string, user: Option<User>, now: string, writeSucceeds: bool): (r: SendOutcome)
    ensures r.write.Some? <==> CanSend(draft, user)
    ensures r.write.Some? ==>
      r.write.value == NewDocument(NumberId(FixedSenderId), FixedSenderName, [Trim(draft)], now)
    ensures r.draft != draft ==> r.write.Some? && writeSucceeds
    ensures r.write.Some? && writeSucceeds ==> r.draft == ""
  {
    if !CanSend(draft, user) then SendOutcome(draft, None)
    else
      var doc := NewDocument(NumberId(FixedSenderId), FixedSenderName, [Trim(draft)], now);
      SendOutcome(if writeSucceeds then "" else draft, Some(doc))
  }

  /** Who the user is makes no difference to what the earlier panel writes. */
  lemma SendIgnoresUser(draft: string, u1: User, u2: User, now: string, ok: bool)
    ensures Send(draft, Some(u1), now, ok) == Send(draft, Some(u2), now, ok)
  {
  }

  /** `substring(0, k)`: at most the first `k` characters. */
  function Prefix(s: string, k: nat): (r: string)
    ensures |r| == if |s| < k then |s| else k
    ensures r == s[..|r|]
  {
    if |s| < k then s else s[..k]
  }

  /** The user the panel settles on. `existing` is the account of an open
      session, `anonymous` the account after creating an anonymous session
      (consulted only when there is no open session); `None` stands for a
      rejected call. A blank account name becomes "Anonymous" for an open
      session and "Guest-" with the first four characters of the id for a
      new anonymous one. */
  function Authenticate(existing: Option<User>, anonymous: Option<User>): (r: Option<User>)
    ensures r.None? <==> existing.None? && anonymous.None?
    ensures existing.Some? ==> r == Some(User(existing.value.id,
      if existing.value.name == "" then "Anonymous" else existing.value.name))
    ensures existing.None? && anonymous.Some? ==> r == Some(User(anonymous.value.id,
      if anonymous.value.name == "" then "Guest-" + Prefix(anonymous.value.id, 4)
      else anonymous.value.name))
    ensures r.Some? ==> r.value.name != ""
  {
    match existing
    case Some(a) => Some(User(a.id, if a.name == "" then "Anonymous" else a.name))
    case None =>
      match anonymous
      case Some(a) => Some(User(a.id, if a.name == "" then "Guest-" + Prefix(a.id, 4) else a.name))
      case None => None
  }

  /** A guest without a name is called "Guest-" and the start of its id, at
      most four characters. */
  lemma GuestName(a: User)
    requires a.name == ""
    ensures var u := Authenticate(None, Some(a)).value;
      |u.name| == 6 + (if |a.id| < 4 then |a.id| else 4)
      && u.name[..6] == "Guest-" && u.name[6..] == a.id[..|u.name| - 6]
  {
  }
}

=== FILE: messages.dfy ===
/**
 The chat data shared by both chat panels: the message document, the
 participant identity, the document a send writes, the events the panel
 reacts to, and the list operations both panels use (reversal and lookup
 by id).
 */
module Messages {
  import opened Wrappers
  import opened Text

  /** A chat message document as the panels read it from the store. */
  datatype Message = Message(
    id: string,
    senderName: string,
    messageContent: string,
    timestamp: string,
    senderId: string)

  /** The local participant: an id and a display name. */
  datatype User = User(id: string, name: string)

  /** The `senderId` field of a written document: the current panel writes the
      user's id string, the earlier panel writes a number literal. */
  datatype SenderRef = TextId(text: string) | NumberId(number: int)

  /** The fields a send passes to the store's create call. The content is an
      array holding the trimmed draft. */
  datatype NewDocument = NewDocument(
    senderId: SenderRef,
    senderName: string,
    messageContent: seq<string>,
    timestamp: string)

  /** What a send leaves behind: the draft in the input box, and the document
      whose creation was requested, if any. */
  datatype SendOutcome = SendOutcome(draft: string, write: Option<NewDocument>)

  /** Something the feed reacts to: the history fetch resolving with the
      documents it returned, the fetch rejecting, or one realtime callback
      carrying its list of event names and its payload. */
  datatype FeedEvent =
    | Fetched(documents: seq<Message>)
    | FetchFailed
    | Delivered(events: seq<string>, payload: Message)

  /** The realtime event name both panels test for with `includes`. */
  const CreateEvent: string := "databases.*.collections.*.documents.*.create"

  /** The guard both panels put on a send: a non-blank draft and a user. */
  predicate CanSend(draft: string, user: Option<User>) {
    Trim(draft) != [] && user.Some?
  }

  /** The ids occurring in a list of messages. */
  function Ids(ms: seq<Message>): set<string> {
    set m | m in ms :: m.id
  }

  /** No two positions of the list hold messages with the same id. */
  ghost predicate DistinctIds(ms: seq<Message>) {
    forall i, j :: 0 <= i < j < |ms| ==> ms[i].id != ms[j].id
  }

  /** `Array.prototype.reverse` as a value: the element at position `i` is the
      one that was at the mirrored position. */
  function Reverse<T>(s: seq<T>): (r: seq<T>)
    ensures |r| == |s|
    ensures forall i :: 0 <= i < |s| ==> r[i] == s[|s| - 1 - i]
    decreases |s|
  {
    if s == [] then [] else Reverse(s[1..]) + [s[0]]
  }

  /** Reversal keeps the set of ids and their distinctness. */
  lemma ReverseIds(ms: seq<Message>)
    ensures Ids(Reverse(ms)) == Ids(ms)
    ensures DistinctIds(ms) ==> DistinctIds(Reverse(ms))
  {
    var r := Reverse(ms);
    forall x | x in Ids(ms) ensures x in Ids(r) {
      var i :| 0 <= i < |ms| && ms[i].id == x;
      assert r[|ms| - 1 - i] == ms[i];
    }
    forall x | x in Ids(r) ensures x in Ids(ms) {
      var i :| 0 <= i < |r| && r[i].id == x;
      assert ms[|ms| - 1 - i] == r[i];
    }
    if DistinctIds(ms) {
      forall i, j | 0 <= i < j < |r| ensures r[i].id != r[j].id {
        assert r[i] == ms[|ms| - 1 - i] && r[j] == ms[|ms| - 1 - j];
      }
    }
  }

  /** Reversing twice gives back the list. */
  lemma ReverseInvolution<T>(s: seq<T>)
    ensures Reverse(Reverse(s)) == s
  {
  }

  /** `ms.find(msg => msg.$id === id)`: a message with that id, if any;
      `FindByIdIsFirst` says it is the first. */
  function FindById(ms: seq<Message>, id: string): (r: Option<Message>)
    ensures r.None? <==> id !in Ids(ms)
    ensures r.Some? ==> r.value in ms && r.value.id == id
    decreases |ms|
  {
    if ms == [] then None
    else if ms[0].id == id then Some(ms[0])
    else
      assert Ids(ms) == {ms[0].id} + Ids(ms[1..]) by {
        assert forall m :: m in ms <==> m == ms[0] || m in ms[1..];
      }
      FindById(ms[1..], id)
  }

  /** The message found is the first one carrying the id. */
  lemma {:induction false} FindByIdIsFirst(ms: seq<Message>, id: string, k: nat)
    requires k < |ms| && ms[k].id == id && id !in Ids(ms[..k])
    ensures FindById(ms, id) == Some(ms[k])
    decreases k
  {
    if k > 0 {
      assert ms[0] in ms[..k];
      assert ms[1..][k - 1] == ms[k];
      assert Ids(ms[1..][..k - 1]) <= Ids(ms[..k]) by {
        assert forall m :: m in ms[1..][..k - 1] ==> m in ms[..k];
      }
      FindByIdIsFirst(ms[1..], id, k - 1);
    }
  }

  /** Every fetch in the trace returned documents with distinct ids. */
  ghost predicate FetchesDistinct(trace: seq<FeedEvent>) {
    forall i :: 0 <= i < |trace| && trace[i].Fetched? ==> DistinctIds(trace[i].documents)
  }

  /** The trace holds no fetch result. */
  ghost predicate NoFetch(trace: seq<FeedEvent>) {
    forall i :: 0 <= i < |trace| ==> !trace[i].Fetched?
  }

  lemma FetchesDistinctTail(trace: seq<FeedEvent>)
    requires trace != [] && FetchesDistinct(trace)
    ensures FetchesDistinct(trace[1..])
  {
    forall i | 0 <= i < |trace| - 1 && trace[1..][i].Fetched?
      ensures DistinctIds(trace[1..][i].documents)
    {
      assert trace[1..][i] == trace[i + 1];
    }
  }

  lemma NoFetchTail(trace: seq<FeedEvent>)
    requires trace != [] && NoFetch(trace)
    ensures !trace[0].Fetched? && NoFetch(trace[1..])
  {
    forall i | 0 <= i < |trace| - 1 ensures !trace[1..][i].Fetched? {
      assert trace[1..][i] == trace[i + 1];
    }
  }

  /** Appending a message whose id is new keeps ids distinct. */
  lemma AppendFreshDistinct(ms: seq<Message>, m: Message)
    requires DistinctIds(ms) && m.id !in Ids(ms)
    ensures DistinctIds(ms + [m])
    ensures Ids(ms + [m]) == Ids(ms) + {m.id}
  {
    var r := ms + [m];
    forall i, j | 0 <= i < j < |r| ensures r[i].id != r[j].id {
      if j == |ms| {
        assert r[i] in ms;
      }
    }
  }
}

=== FILE: player.dfy ===
/**
 The audio player controls around the focus timer: the ten-second skip
 buttons of the player page (app/page.tsx) and the time line of the
 expanded player island (app/components/dynamic-island.tsx). Playback
 positions are whole seconds.
 */
module Player {
  import opened Wrappers
  import opened Text
  import opened TimeFormat

  /** How far one press of a skip button moves, in seconds. */
  const SkipSeconds: int := 10

  /** Skip forward: ten seconds later, but not past the track's end. */
  function SkipForward(position: int, duration: int): (r: int)
    ensures r <= duration && r <= position + SkipSeconds
    ensures r == duration || r == position + SkipSeconds
  {
    if position + SkipSeconds < duration then position + SkipSeconds else duration
  }

  /** Skip back: ten seconds earlier, but not before the start. */
  function SkipBack(position: int): (r: int)
    ensures r >= 0 && r >= position - SkipSeconds
    ensures r == 0 || r == position - SkipSeconds
  {
    if position - SkipSeconds > 0 then position - SkipSeconds else 0
  }

  /** A position inside the track stays inside it under either skip. */
  lemma SkipsStayInTrack(position: int, duration: int)
    requires 0 <= position <= duration
    ensures 0 <= SkipForward(position, duration) <= duration
    ensures 0 <= SkipBack(position) <= duration
    ensures position <= SkipForward(position, duration)
    ensures SkipBack(position) <= position
  {
  }

  /** Away from the ends, each skip undoes the other. */
  lemma SkipsUndoEachOther(position: int, duration: int)
    ensures 0 <= position && position + SkipSeconds <= duration ==>
      SkipBack(SkipForward(position, duration)) == position
    ensures SkipSeconds <= position <= duration ==>
      SkipForward(SkipBack(position), duration) == position
  {
  }

  /** The placeholder shown until the track's length is known. */
  const LoadingLabel: string := "Loading..."

  /** The island's time line: "elapsed / length" in `m:ss`, or the
      placeholder while the length is zero. */
  function TrackLabel(position: nat, duration: nat): (r: string)
    ensures r == LoadingLabel <==> duration == 0
  {
    if duration > 0 then
      var r := FormatTime(position) + " / " + FormatTime(duration);
      assert IsDigit(r[0]) && !IsDigit(LoadingLabel[0]);
      r
    else
      LoadingLabel
  }

  /** Reads a time line back into its two times. */
  function ParseTrackLabel(s: string): Option<(nat, nat)> {
    match IndexOf(s, '/')
    case None => None
    case Some(k) =>
      if 1 <= k && k + 2 <= |s| && s[k - 1] == ' ' && s[k + 1] == ' ' then
        var a := ParseTime(s[..k - 1]);
        var b := ParseTime(s[k + 2..]);
        if a.Some? && b.Some? then Some((a.value, b.value)) else None
      else
        None
  }

  lemma NoSlashInTime(n: nat)
    ensures '/' !in FormatTime(n) + " "
  {
    var t := FormatTime(n);
    forall i | 0 <= i < |t| ensures t[i] != '/' {
      assert IsDigit(t[i]) || t[i] == ':';
    }
  }

  /** Reading "a / b" back splits at the slash, provided `a` has none. */
  lemma ParseJoinedLabel(a: string, b: string)
    requires '/' !in a + " "
    ensures ParseTrackLabel(a + " / " + b) ==
      match (ParseTime(a), ParseTime(b))
      case (Some(x), Some(y)) => Some((x, y))
      case _ => None
  {
    var before := a + " ";
    var after := " " + b;
    var r := before + ['/'] + after;
    assert a + " / " + b == r;
    IndexOfJoin(before, '/', after);
    var k := |before|;
    assert r[k - 1] == ' ' && r[k + 1] == ' ';
    assert r[..k - 1] == a;
    assert r[k + 2..] == b;
  }

  /** Once the length is known, the time line shows the position and the
      length, and both read back. */
  lemma TrackLabelRoundTrip(position: nat, duration: nat)
    requires duration > 0
    ensures ParseTrackLabel(TrackLabel(position, duration)) == Some((position, duration))
  {
    NoSlashInTime(position);
    ParseJoinedLabel(FormatTime(position), FormatTime(duration));
    FormatTimeRoundTrip(position);
    FormatTimeRoundTrip(duration);
  }

  /** The time line is the only string that reads back as its two times:
      whatever reads as `position` and `duration` is, character for
      character, `formatTime(position) / formatTime(duration)`. */
  lemma TrackLabelOnlySpelling(s: string, position: nat, duration: nat)
    requires duration > 0
    requires ParseTrackLabel(s) == Some((position, duration))
    ensures s == TrackLabel(position, duration)
  {
    ParseTrackLabelShape(s, position, duration);
    var k := IndexOf(s, '/').value;
    SplitAroundSlash(s, k);
    TimesJoined(s[..k - 1], s[k + 2..], position, duration);
  }

  /** Two strings that read as the two times, joined by " / ", are the
      time line. */
  lemma TimesJoined(a: string, b: string, position: nat, duration: nat)
    requires duration > 0
    requires ParseTime(a) == Some(position) && ParseTime(b) == Some(duration)
    ensures a + " / " + b == TrackLabel(position, duration)
  {
    ParseTimeOnlyReadsFormatTime(a, position);
    ParseTimeOnlyReadsFormatTime(b, duration);
  }

  /** `s` has " / " around position `k`, and the times on either side read as
      `position` and `duration`. */
  ghost predicate LabelFields(s: string, k: nat, position: nat, duration: nat) {
    && 1 <= k && k + 2 <= |s| && s[k - 1] == ' ' && s[k] == '/' && s[k + 1] == ' '
    && ParseTime(s[..k - 1]) == Some(position) && ParseTime(s[k + 2..]) == Some(duration)
  }

  /** Where `ParseTrackLabel` finds its two times. */
  lemma ParseTrackLabelShape(s: string, position: nat, duration: nat)
    requires ParseTrackLabel(s) == Some((position, duration))
    ensures IndexOf(s, '/').Some? && LabelFields(s, IndexOf(s, '/').value, position, duration)
  {
  }

  lemma SplitAroundSlash(s: string, k: nat)
    requires 1 <= k && k + 2 <= |s| && s[k - 1] == ' ' && s[k] == '/' && s[k + 1] == ' '
    ensures s == s[..k - 1] + " / " + s[k + 2..]
  {
    assert s[k - 1..k + 2] == " / ";
    assert s == s[..k - 1] + s[k - 1..k + 2] + s[k + 2..];
  }
}

=== FILE: pomodoro.dfy ===
/**
 The focus timer of the player page (app/page.tsx): minutes, seconds, a
 running flag and a work/break mode, driven by a start/pause toggle, a
 reset, and a one-second interval.

 The interval callback is created when the timer starts and reads the
 minutes and the mode captured at that moment; only the seconds come from
 the live state. `Tick` therefore takes the captured values as parameters,
 and the `Clock` records them when the toggle starts the interval.
 */
module Pomodoro {
  import opened Wrappers

  datatype Mode = Work | Break

  /** Length of a focus session and of a break, in minutes. */
  const WorkMinutes: int := 25
  const BreakMinutes: int := 5

  function SessionMinutes(mode: Mode): int {
    if mode == Work then WorkMinutes else BreakMinutes
  }

  function Other(mode: Mode): Mode {
    if mode == Work then Break else Work
  }

  datatype Timer = Timer(minutes: int, seconds: int, running: bool, mode: Mode) {
    /** The time left, in seconds. */
    function Total(): int {
      minutes * 60 + seconds
    }

    /** A well-formed reading: whole minutes and 0..59 seconds. */
    predicate WellFormed() {
      minutes >= 0 && 0 <= seconds < 60
    }
  }

  /** The state the page starts in and the state reset returns to. */
  const Initial: Timer := Timer(WorkMinutes, 0, false, Work)

  /** One interval callback. With seconds left it counts one down; at zero
      seconds it borrows a minute when the CAPTURED minutes are positive;
      otherwise the session is over: the timer stops and switches to the
      other mode's full length, chosen by the CAPTURED mode. */
  function Tick(t: Timer, capturedMinutes: int, capturedMode: Mode): (r: Timer)
    ensures t.seconds > 0 ==> r == t.(seconds := t.seconds - 1)
    ensures t.seconds <= 0 && capturedMinutes > 0 ==>
      r == t.(minutes := t.minutes - 1, seconds := 59)
    ensures t.seconds <= 0 && capturedMinutes <= 0 ==>
      r == Timer(SessionMinutes(Other(capturedMode)), 0, false, Other(capturedMode))
    ensures r.running != t.running ==> !r.running
  {
    if t.seconds > 0 then t.(seconds := t.seconds - 1)
    else if capturedMinutes > 0 then t.(minutes := t.minutes - 1, seconds := 59)
    else Timer(SessionMinutes(Other(capturedMode)), 0, false, Other(capturedMode))
  }

  /** With captured values equal to the live ones, a tick before the end
      takes exactly one second off a well-formed reading and keeps it well
      formed, running and in the same mode. */
  lemma TickCountsDown(t: Timer)
    requires t.WellFormed() && t.Total() > 0
    ensures var r := Tick(t, t.minutes, t.mode);
      r.WellFormed() && r.Total() == t.Total() - 1
      && r.running == t.running && r.mode == t.mode
  {
  }

  /** At 0:00 a tick ends the session: stopped, other mode, full length. */
  lemma TickAtZeroSwitches(t: Timer)
    requires t.minutes == 0 && t.seconds == 0
    ensures var r := Tick(t, t.minutes, t.mode);
      !r.running && r.mode != t.mode && r.seconds == 0
      && r.minutes == (if t.mode == Work then 5 else 25)
  {
  }

  // ---------------------------------------------------------------------
  // the clock: timer plus the live interval, if any
  // ---------------------------------------------------------------------

  /** What the interval closure captured when the timer started. */
  datatype Capture = Capture(minutes: int, mode: Mode)

  /** The timer together with the interval that is running, if any. */
  datatype Clock = Clock(timer: Timer, interval: Option<Capture>)

  datatype ClockEvent = Toggle | Reset | Second

  const Start: Clock := Clock(Initial, None)

  /** The start/pause button: pausing clears the interval and keeps the
      reading; starting sets the flag and installs an interval that captures
      the current minutes and mode. */
  function ToggleTimer(c: Clock): (r: Clock)
    ensures c.timer.running ==>
      r.interval.None? && !r.timer.running && r.timer == c.timer.(running := false)
    ensures !c.timer.running ==>
      r.timer == c.timer.(running := true)
      && r.interval == Some(Capture(c.timer.minutes, c.timer.mode))
  {
    if c.timer.running then Clock(c.timer.(running := false), None)
    else Clock(c.timer.(running := true), Some(Capture(c.timer.minutes, c.timer.mode)))
  }

  /** The reset button: no interval, stopped, focus mode, 25:00. */
  function ResetTimer(c: Clock): (r: Clock)
    ensures r.interval.None? && r.timer == Timer(25, 0, false, Work)
  {
    Clock(Initial, None)
  }

  /** One second elapses: the interval, if any, runs its callback, and is
      cleared when the callback ends the session. */
  function Elapse(c: Clock): (r: Clock)
    ensures c.interval.None? ==> r == c
    ensures c.interval.Some? ==>
      r.timer == Tick(c.timer, c.interval.value.minutes, c.interval.value.mode)
    ensures c.interval.Some? ==> (r.interval.Some? <==> r.timer.running)
    ensures r.interval.Some? ==> r.interval == c.interval
  {
    match c.interval
    case None => c
    case Some(cap) =>
      var t := Tick(c.timer, cap.minutes, cap.mode);
      Clock(t, if t.running then c.interval else None)
  }

  function Step(c: Clock, e: ClockEvent): Clock {
    match e
    case Toggle => ToggleTimer(c)
    case Reset => ResetTimer(c)
    case Second => Elapse(c)
  }

  function Run(c: Clock, trace: seq<ClockEvent>): Clock
    decreases |trace|
  {
    if trace == [] then c else Run(Step(c, trace[0]), trace[1..])
  }

  /** The clock invariant: an interval exists exactly while the timer runs,
      it captured the current mode, and seconds never go negative. */
  ghost predicate Coherent(c: Clock) {
    && (c.interval.Some? <==> c.timer.running)
    && (c.interval.Some? ==> c.interval.value.mode == c.timer.mode)
    && c.timer.seconds >= 0
  }

  lemma {:induction false} RunStaysCoherent(c: Clock, trace: seq<ClockEvent>)
    requires Coherent(c)
    ensures Coherent(Run(c, trace))
    decreases |trace|
  {
    if trace != [] {
      var next := Step(c, trace[0]);
      assert Coherent(next);
      RunStaysCoherent(next, trace[1..]);
    }
  }

  /** Pausing and starting again changes no reading. */
  lemma PauseKeepsReading(c: Clock)
    requires c.timer.running
    ensures var r := ToggleTimer(c);
      r.timer.minutes == c.timer.minutes && r.timer.seconds == c.timer.seconds
      && r.timer.mode == c.timer.mode
  {
  }

  /** Reset gives the same clock from any state, so it is idempotent. */
  lemma ResetIdempotent(c: Clock, d: Clock)
    ensures ResetTimer(c) == ResetTimer(d) == ResetTimer(ResetTimer(c)) == Start
  {
  }

  // ---------------------------------------------------------------------
  // a continuous run, as written and as intended
  // ---------------------------------------------------------------------

  /** `n` seconds elapse with no button pressed. */
  function Seconds(c: Clock, n: nat): Clock
    decreases n
  {
    if n == 0 then c else Seconds(Elapse(c), n - 1)
  }

  /** As written: once the interval captured positive minutes, the borrow
      branch is taken at every 0 seconds, so the session never ends and the
      time left keeps falling one second per second, past zero. */
  lemma {:induction false} StaleRunNeverEnds(c: Clock, n: nat)
    requires c.interval.Some? && c.interval.value.minutes > 0 && c.timer.running
    requires 0 <= c.timer.seconds < 60
    ensures var r := Seconds(c, n);
      r.interval == c.interval && r.timer.running && 0 <= r.timer.seconds < 60
      && r.timer.Total() == c.timer.Total() - n && r.timer.mode == c.timer.mode
    decreases n
  {
    if n > 0 {
      StaleRunNeverEnds(Elapse(c), n - 1);
    }
  }

  /** Starting a focus session and leaving it for 25 minutes and one second
      shows minus one minute and 59 seconds, still running. */
  lemma StaleRunGoesNegative()
    ensures var r := Seconds(ToggleTimer(Start), 1501).timer;
      r.minutes == -1 && r.seconds == 59 && r.running && r.mode == Work
  {
    var started := ToggleTimer(Start);
    StaleRunNeverEnds(started, 1501);
  }

  /** As intended: the callback reads the live minutes and mode. */
  function TickLive(t: Timer): (r: Timer)
    ensures t.WellFormed() && t.Total() > 0 ==>
      r.WellFormed() && r.Total() == t.Total() - 1 && r.running == t.running && r.mode == t.mode
    ensures t.Total() == 0 && t.WellFormed() ==>
      r == Timer(SessionMinutes(Other(t.mode)), 0, false, Other(t.mode))
  {
    Tick(t, t.minutes, t.mode)
  }

  /** `n` live ticks of a running timer, stopping the interval when the
      session ends. */
  function LiveSeconds(t: Timer, n: nat): Timer
    decreases n
  {
    if n == 0 || !t.running then t else LiveSeconds(TickLive(t), n - 1)
  }

  /** With live reads, a running well-formed session counts down one second
      per tick and ends exactly one tick after reaching 0:00, stopped in the
      other mode at that mode's full length. */
  lemma {:induction false} LiveRunEnds(t: Timer, n: nat)
    requires t.WellFormed() && t.running
    ensures n <= t.Total() ==>
      var r := LiveSeconds(t, n);
      r.WellFormed() && r.running && r.mode == t.mode && r.Total() == t.Total() - n
    ensures n > t.Total() ==>
      LiveSeconds(t, n) == Timer(SessionMinutes(Other(t.mode)), 0, false, Other(t.mode))
    decreases n
  {
    if n > 0 {
      if t.Total() > 0 {
        LiveRunEnds(TickLive(t), n - 1);
      } else {
        var r := TickLive(t);
        assert !r.running;
        assert LiveSeconds(t, n) == LiveSeconds(r, n - 1);
        assert LiveSeconds(r, n - 1) == r;
      }
    }
  }

  /** As intended, one second elapsing: the callback reads the live state. */
  function ElapseLive(c: Clock): (r: Clock)
    ensures c.interval.None? ==> r == c
    ensures c.interval.Some? ==> r.timer == TickLive(c.timer)
    ensures c.interval.Some? ==> (r.interval.Some? <==> r.timer.running)
    ensures r.interval.Some? ==> r.interval == c.interval
  {
    match c.interval
    case None => c
    case Some(_) =>
      var t := TickLive(c.timer);
      Clock(t, if t.running then c.interval else None)
  }

  function StepLive(c: Clock, e: ClockEvent): Clock {
    match e
    case Toggle => ToggleTimer(c)
    case Reset => ResetTimer(c)
    case Second => ElapseLive(c)
  }

  function RunLive(c: Clock, trace: seq<ClockEvent>): Clock
    decreases |trace|
  {
    if trace == [] then c else RunLive(StepLive(c, trace[0]), trace[1..])
  }

  /** With live reads, whatever the buttons and seconds, the timer always
      shows a well-formed reading, and an interval runs exactly while the
      timer does. */
  lemma {:induction false} LiveRunStaysWellFormed(c: Clock, trace: seq<ClockEvent>)
    requires Coherent(c) && c.timer.WellFormed()
    ensures Coherent(RunLive(c, trace)) && RunLive(c, trace).timer.WellFormed()
    decreases |trace|
  {
    if trace != [] {
      var next := StepLive(c, trace[0]);
      assert Coherent(next) && next.timer.WellFormed();
      LiveRunStaysWellFormed(next, trace[1..]);
    }
  }

  /** `n` seconds with no button pressed, as a trace. */
  function SecondsTrace(n: nat): (r: seq<ClockEvent>)
    ensures |r| == n && forall i :: 0 <= i < n ==> r[i] == Second
  {
    seq(n, _ => Second)
  }

  /** On the corrected clock, `n` seconds with no button pressed move the
      timer exactly as `n` live ticks do, and the interval stays exactly
      while the timer runs. */
  lemma {:induction false} LiveClockFollowsTicks(c: Clock, n: nat)
    requires Coherent(c) && c.timer.WellFormed()
    ensures var r := RunLive(c, SecondsTrace(n));
      r.timer == LiveSeconds(c.timer, n) && Coherent(r)
    decreases n
  {
    if n > 0 {
      var trace := SecondsTrace(n);
      assert trace[0] == Second && trace[1..] == SecondsTrace(n - 1);
      var next := ElapseLive(c);
      assert RunLive(c, trace) == RunLive(next, SecondsTrace(n - 1));
      if c.timer.running {
        assert next.timer == TickLive(c.timer);
        LiveRunStaysWellFormed(c, [Second]);
        assert RunLive(c, [Second]) == next;
        LiveClockFollowsTicks(next, n - 1);
      } else {
        assert next == c;
        LiveClockFollowsTicks(c, n - 1);
        assert LiveSeconds(c.timer, n - 1) == c.timer;
      }
    }
  }

  /** As intended: starting a well-formed session on the corrected clock
      and leaving it, the display counts down one second per second, and
      one second after 0:00 the timer has stopped, its interval is gone, and
      it shows the other mode's full length. */
  lemma LiveClockSessionEnds(c: Clock, n: nat)
    requires Coherent(c) && c.timer.WellFormed() && c.timer.running
    ensures n <= c.timer.Total() ==>
      var r := RunLive(c, SecondsTrace(n));
      r.timer.WellFormed() && r.timer.running && r.interval == c.interval
      && r.timer.Total() == c.timer.Total() - n
    ensures n > c.timer.Total() ==>
      RunLive(c, SecondsTrace(n)) ==
        Clock(Timer(SessionMinutes(Other(c.timer.mode)), 0, false, Other(c.timer.mode)), None)
  {
    LiveClockFollowsTicks(c, n);
    LiveRunEnds(c.timer, n);
    LiveIntervalKept(c, n);
  }

  /** While the corrected clock runs, the interval it keeps is the one it
      started with. */
  lemma {:induction false} LiveIntervalKept(c: Clock, n: nat)
    requires Coherent(c)
    ensures RunLive(c, SecondsTrace(n)).interval.Some? ==>
      RunLive(c, SecondsTrace(n)).interval == c.interval
    decreases n
  {
    if n > 0 {
      var trace := SecondsTrace(n);
      assert trace[0] == Second && trace[1..] == SecondsTrace(n - 1);
      var next := ElapseLive(c);
      assert RunLive(c, trace) == RunLive(next, SecondsTrace(n - 1));
      assert Coherent(next);
      LiveIntervalKept(next, n - 1);
    }
  }
}

=== FILE: text.dfy ===
/**
 The few JavaScript string operations the application relies on, over
 `string` (a sequence of Unicode scalar values): `String.prototype.trim`,
 `String(n)` for integers and `padStart`; and, to state round trips,
 decimal parsing and a first-occurrence search the readers of printed
 times split on.
 */
module Text {
  import opened Wrappers

  // ---------------------------------------------------------------------
  // trim
  // ---------------------------------------------------------------------

  /** The characters `trim` removes: ECMAScript WhiteSpace (TAB, VT, FF,
      ZWNBSP and the Zs space separators U+0020, U+00A0, U+1680,
      U+2000..U+200A, U+202F, U+205F, U+3000) and LineTerminator (LF, CR, LS,
      PS). */
  const Spaces: set<char> := {
    '\t', '\U{000B}', '\U{000C}', '\U{FEFF}',
    ' ', '\U{00A0}', '\U{1680}',
    '\U{2000}', '\U{2001}', '\U{2002}', '\U{2003}', '\U{2004}', '\U{2005}',
    '\U{2006}', '\U{2007}', '\U{2008}', '\U{2009}', '\U{200A}',
    '\U{202F}', '\U{205F}', '\U{3000}',
    '\n', '\r', '\U{2028}', '\U{2029}'
  }

  predicate IsSpace(c: char) {
    c in Spaces
  }

  ghost predicate AllSpace(s: string) {
    forall i :: 0 <= i < |s| ==> IsSpace(s[i])
  }

  /** The index of the first character at or after `i` that is not white
      space, or `|s|` when there is none. */
  function SkipSpaces(s: string, i: nat): (k: nat)
    requires i <= |s|
    ensures i <= k <= |s|
    ensures forall j :: i <= j < k ==> IsSpace(s[j])
    ensures k < |s| ==> !IsSpace(s[k])
    decreases |s| - i
  {
    if i < |s| && IsSpace(s[i]) then SkipSpaces(s, i + 1) else i
  }

  /** The index just after the last character before `j` that is not white
      space, or 0 when there is none. */
  function SkipSpacesBack(s: string, j: nat): (k: nat)
    requires j <= |s|
    ensures k <= j
    ensures forall i :: k <= i < j ==> IsSpace(s[i])
    ensures k > 0 ==> !IsSpace(s[k - 1])
    decreases j
  {
    if j > 0 && IsSpace(s[j - 1]) then SkipSpacesBack(s, j - 1) else j
  }

  /** `s.trim()`: removes white space at both ends. */
  function Trim(s: string): (r: string)
    ensures r == [] <==> AllSpace(s)
    ensures r != [] ==> !IsSpace(r[0]) && !IsSpace(r[|r| - 1])
  {
    var a := SkipSpaces(s, 0);
    var b := SkipSpacesBack(s, |s|);
    if a < b then s[a..b] else []
  }

  /** The result of `trim` is the slice of the input that starts after the
      leading white space and is followed only by white space. */
  lemma TrimIsInfix(s: string)
    ensures var r := Trim(s);
      var a := SkipSpaces(s, 0);
      a + |r| <= |s| && r == s[a..a + |r|] && AllSpace(s[..a]) && AllSpace(s[a + |r|..])
  {
    var a := SkipSpaces(s, 0);
    var b := SkipSpacesBack(s, |s|);
    if a < b {
      assert Trim(s) == s[a..b];
    } else {
      assert Trim(s) == [];
    }
  }

  /** Trimming twice is trimming once. */
  lemma TrimIdempotent(s: string)
    ensures Trim(Trim(s)) == Trim(s)
  {
    var r := Trim(s);
    if r != [] {
      assert SkipSpaces(r, 0) == 0;
      assert SkipSpacesBack(r, |r|) == |r|;
      assert r[0..|r|] == r;
    }
  }

  // ---------------------------------------------------------------------
  // decimal digits, String(n), parsing
  // ---------------------------------------------------------------------

  predicate IsDigit(c: char) {
    '0' <= c <= '9'
  }

  predicate AllDigits(s: string) {
    forall i :: 0 <= i < |s| ==> IsDigit(s[i])
  }

  function DigitChar(d: nat): (c: char)
    requires d < 10
    ensures IsDigit(c)
  {
    (48 + d) as char
  }

  function DigitValue(c: char): (d: nat)
    requires IsDigit(c)
    ensures d < 10 && DigitChar(d) == c
  {
    c as int - 48
  }

  /** `String(n)` for a non-negative integer: shortest decimal form. */
  function NatToString(n: nat): (r: string)
    ensures r != [] && AllDigits(r)
    ensures |r| > 1 <==> n >= 10
    ensures r[0] == '0' ==> n == 0
    decreases n
  {
    if n < 10 then [DigitChar(n)] else NatToString(n / 10) + [DigitChar(n % 10)]
  }

  /** `String(i)` for any integer: a minus sign before the magnitude when negative. */
  function IntToString(i: int): (r: string)
    ensures r != []
    ensures i >= 0 <==> AllDigits(r)
    ensures i < 0 <==> r[0] == '-'
    ensures r[0] == '0' ==> r == "0"
    ensures i < 0 ==> |r| >= 2 && r[1] != '0'
  {
    if i < 0 then
      var r := "-" + NatToString(-i);
      assert r[0] == '-';
      r
    else
      NatToString(i)
  }

  /** The value of a string of decimal digits, leading zeros allowed. */
  function DigitsValue(s: string): nat
    requires AllDigits(s)
    decreases |s|
  {
    if s == [] then 0 else DigitsValue(s[..|s| - 1]) * 10 + DigitValue(s[|s| - 1])
  }

  /** Reads back a non-empty run of decimal digits; anything else is `None`. */
  function ParseNat(s: string): (r: Option<nat>)
    ensures r.Some? <==> s != [] && AllDigits(s)
  {
    if s != [] && AllDigits(s) then Some(DigitsValue(s)) else None
  }

  lemma DigitRoundTrip(d: nat)
    requires d < 10
    ensures DigitValue(DigitChar(d)) == d
  {
  }

  /** `String(n)` reads back as `n`. */
  lemma {:induction false} NatToStringRoundTrip(n: nat)
    ensures ParseNat(NatToString(n)) == Some(n)
    decreases n
  {
    var s := NatToString(n);
    if n < 10 {
      DigitRoundTrip(n);
      assert s == [DigitChar(n)];
      assert s[..0] == [];
      assert DigitsValue(s) == DigitsValue(s[..0]) * 10 + DigitValue(s[0]);
    } else {
      var prefix := NatToString(n / 10);
      var last := DigitChar(n % 10);
      assert s == prefix + [last];
      assert s[..|s| - 1] == prefix && s[|s| - 1] == last;
      NatToStringRoundTrip(n / 10);
      DigitRoundTrip(n % 10);
      calc {
        DigitsValue(s);
        DigitsValue(prefix) * 10 + DigitValue(last);
        (n / 10) * 10 + n % 10;
        n;
      }
    }
  }

  /** Reads back `String(i)` for any integer: an optional minus sign, then a
      non-empty run of decimal digits. */
  function ParseInt(s: string): (r: Option<int>)
    ensures r.Some? && r.value < 0 ==> s != [] && s[0] == '-'
  {
    if s != [] && s[0] == '-' then
      match ParseNat(s[1..])
      case Some(n) => Some(-(n as int))
      case None => None
    else
      match ParseNat(s)
      case Some(n) => Some(n as int)
      case None => None
  }

  /** `String(i)` reads back as `i`, negative or not. */
  lemma IntToStringRoundTrip(i: int)
    ensures ParseInt(IntToString(i)) == Some(i)
  {
    if i < 0 {
      var r := IntToString(i);
      assert r[1..] == NatToString(-i);
      NatToStringRoundTrip(-i);
    } else {
      NatToStringRoundTrip(i);
    }
  }

  function Repeat(c: char, k: nat): (r: string)
    ensures |r| == k && forall i :: 0 <= i < k ==> r[i] == c
  {
    seq(k, _ => c)
  }

  /** Leading zeros do not change the value of a digit string. */
  lemma {:induction false} LeadingZerosValue(k: nat, s: string)
    requires AllDigits(s)
    ensures AllDigits(Repeat('0', k) + s)
    ensures DigitsValue(Repeat('0', k) + s) == DigitsValue(s)
    decreases |s|
  {
    var z := Repeat('0', k);
    assert AllDigits(z + s);
    if s == [] {
      assert z + s == z;
      ZerosValue(k);
    } else {
      var t := z + s;
      assert t[..|t| - 1] == z + s[..|s| - 1];
      LeadingZerosValue(k, s[..|s| - 1]);
    }
  }

  lemma {:induction false} ZerosValue(k: nat)
    ensures AllDigits(Repeat('0', k)) && DigitsValue(Repeat('0', k)) == 0
    decreases k
  {
    if k > 0 {
      assert Repeat('0', k)[..k - 1] == Repeat('0', k - 1);
      ZerosValue(k - 1);
    }
  }

  // ---------------------------------------------------------------------
  // padStart; a first-occurrence search for the readers
  // ---------------------------------------------------------------------

  /** `s.padStart(width, fill)` for a one-character fill string: the result
      is at least `width` long, ends with `s`, and is `fill` before that. */
  function PadStart(s: string, width: nat, fill: char): (r: string)
    ensures |r| == if |s| >= width then |s| else width
    ensures r[|r| - |s|..] == s
    ensures forall i :: 0 <= i < |r| - |s| ==> r[i] == fill
  {
    if |s| >= width then s else Repeat(fill, width - |s|) + s
  }

  /** Zero-padding a decimal string keeps its value. */
  lemma PadZerosValue(s: string, width: nat)
    requires s != [] && AllDigits(s)
    ensures ParseNat(PadStart(s, width, '0')) == ParseNat(s)
  {
    if |s| < width {
      LeadingZerosValue(width - |s|, s);
    }
  }

  /** The position of the first occurrence of `c`, if any: where the
      readers of printed times and clock displays split their fields. */
  function IndexOf(s: string, c: char): (r: Option<nat>)
    ensures r.None? <==> c !in s
    ensures r.Some? ==> r.value < |s| && s[r.value] == c && c !in s[..r.value]
    decreases |s|
  {
    if s == [] then None
    else if s[0] == c then Some(0)
    else match IndexOf(s[1..], c)
      case None => None
      case Some(k) =>
        assert s[..k + 1] == [s[0]] + s[1..][..k];
        Some(k + 1)
  }

  /** A position holding `c` with no `c` before it is what `IndexOf` finds. */
  lemma IndexOfFirst(s: string, c: char, k: nat)
    requires k < |s| && s[k] == c && c !in s[..k]
    ensures IndexOf(s, c) == Some(k)
  {
    assert s[k] in s;
  }

  /** In `a + [c] + b` with no `c` in `a`, the first `c` is right after `a`. */
  lemma IndexOfJoin(a: string, c: char, b: string)
    requires c !in a
    ensures IndexOf(a + [c] + b, c) == Some(|a|)
  {
    var s := a + [c] + b;
    assert s[|a|] == c;
    assert s[..|a|] == a;
    IndexOfFirst(s, c, |a|);
  }

  lemma DigitsHaveNo(s: string, c: char)
    requires AllDigits(s) && !IsDigit(c)
    ensures c !in s
  {
  }
}

=== FILE: time_format.dfy ===
/**
 The two ways the application prints a duration: the player's `m:ss`
 (app/components/dynamic-island.tsx) and the focus timer's `mm:ss`, each
 field of which is padded to two characters (app/page.tsx). Each comes with
 a reader that gets the numbers back, so the round trips can be stated.
 */
module TimeFormat {
  import opened Wrappers
  import opened Text

  /** The player's `formatTime`: whole minutes, unpadded, then ':' and the
      remaining seconds zero-padded to two digits. Inputs are whole seconds
      (the page floors the audio element's times). */
  function FormatTime(n: nat): (r: string)
    ensures |r| >= 4 && r[|r| - 3] == ':'
    ensures AllDigits(r[..|r| - 3]) && r[..|r| - 3] != []
    ensures AllDigits(r[|r| - 2..])
    ensures forall i :: 0 <= i < |r| && i != |r| - 3 ==> IsDigit(r[i])
    ensures r[..|r| - 3] == NatToString(n / 60)
    ensures r[0] == '0' ==> n < 60
  {
    var mins := NatToString(n / 60);
    var secs := PadStart(NatToString(n % 60), 2, '0');
    SecondsFieldWidth(n % 60);
    var r := mins + ":" + secs;
    assert r[..|r| - 3] == mins && r[|r| - 2..] == secs;
    r
  }

  /** A number below 100 prints in one or two digits, so padding to two makes
      exactly two. */
  lemma SecondsFieldWidth(s: nat)
    requires s < 100
    ensures |PadStart(NatToString(s), 2, '0')| == 2
  {
    if s >= 10 {
      assert NatToString(s) == NatToString(s / 10) + [DigitChar(s % 10)];
    }
  }

  /** Reads `m:ss` back into seconds: the minutes in their shortest decimal
      form, one ':', then exactly two digits worth less than 60. */
  function ParseTime(s: string): (r: Option<nat>)
    ensures r.Some? ==> ':' in s && |s| >= 4
  {
    match IndexOf(s, ':')
    case None => None
    case Some(k) =>
      var mins := ParseNat(s[..k]);
      var secs := s[k + 1..];
      if mins.Some? && s[..k] == NatToString(mins.value)
         && |secs| == 2 && AllDigits(secs) && DigitsValue(secs) < 60 then
        Some(mins.value * 60 + DigitsValue(secs))
      else
        None
  }

  /** The two fields of `m:ss` read back as the whole minutes and the
      remaining seconds. */
  lemma FormatTimeFields(n: nat)
    ensures var r := FormatTime(n);
      ParseNat(r[..|r| - 3]) == Some(n / 60) && ParseNat(r[|r| - 2..]) == Some(n % 60)
  {
    var mins := NatToString(n / 60);
    var secs := PadStart(NatToString(n % 60), 2, '0');
    var r := FormatTime(n);
    assert r == mins + ":" + secs;
    SecondsFieldWidth(n % 60);
    assert r[|r| - 2..] == secs;
    NatToStringRoundTrip(n / 60);
    PaddedReadsBack(n % 60);
  }

  /** The first ':' of `m:ss` is the separator, three from the end. */
  lemma FormatTimeSeparator(n: nat)
    ensures var r := FormatTime(n);
      IndexOf(r, ':') == Some(|r| - 3)
  {
    var r := FormatTime(n);
    var k := |r| - 3;
    DigitsHaveNo(r[..k], ':');
    IndexOfFirst(r, ':', k);
  }

  /** A string whose first ':' is three from the end, with `n`'s whole
      minutes before it and its remaining seconds after it, reads as `n`. */
  lemma ParseTimeFields(r: string, n: nat)
    requires |r| >= 3 && IndexOf(r, ':') == Some(|r| - 3)
    requires r[..|r| - 3] == NatToString(n / 60) && ParseNat(r[|r| - 2..]) == Some(n % 60)
    ensures ParseTime(r) == Some(n)
  {
    NatToStringRoundTrip(n / 60);
    assert r[|r| - 3 + 1..] == r[|r| - 2..];
  }

  /** Reading the printed form back gives the number of seconds. */
  lemma FormatTimeRoundTrip(n: nat)
    ensures ParseTime(FormatTime(n)) == Some(n)
  {
    FormatTimeSeparator(n);
    FormatTimeFields(n);
    ParseTimeFields(FormatTime(n), n);
  }

  /** Two two-digit strings with the same value are the same string. */
  lemma TwoDigitsInjective(a: string, b: string)
    requires |a| == 2 && |b| == 2 && AllDigits(a) && AllDigits(b)
    requires DigitsValue(a) == DigitsValue(b)
    ensures a == b
  {
    TwoDigitsValue(a);
    TwoDigitsValue(b);
    assert DigitValue(a[0]) == DigitValue(b[0]);
    assert a[0] == DigitChar(DigitValue(a[0])) && b[0] == DigitChar(DigitValue(b[0]));
  }

  lemma TwoDigitsValue(t: string)
    requires |t| == 2 && AllDigits(t)
    ensures DigitsValue(t) == DigitValue(t[0]) * 10 + DigitValue(t[1])
  {
    var h := t[..1];
    assert h == [t[0]] && t[..|t| - 1] == h && h[..|h| - 1] == [];
    assert DigitsValue(h) == DigitValue(t[0]);
  }

  /** `s` is `n` in `m:ss` fields around the ':' at `k`: the shortest decimal
      minutes, then two digits holding the remaining seconds. */
  ghost predicate TimeFields(s: string, k: nat, n: nat) {
    && k < |s| && s[k] == ':' && s[..k] == NatToString(n / 60)
    && |s[k + 1..]| == 2 && AllDigits(s[k + 1..]) && DigitsValue(s[k + 1..]) == n % 60
  }

  /** The fields of a string `ParseTime` reads as `n`. */
  lemma ParseTimeShape(s: string, n: nat)
    requires ParseTime(s) == Some(n)
    ensures IndexOf(s, ':').Some? && TimeFields(s, IndexOf(s, ':').value, n)
  {
    var k := IndexOf(s, ':').value;
    MinutesAndRest(DigitsValue(s[..k]), DigitsValue(s[k + 1..]));
  }

  lemma MinutesAndRest(m: nat, v: nat)
    requires v < 60
    ensures (m * 60 + v) / 60 == m && (m * 60 + v) % 60 == v
  {
  }

  /** `m:ss` is the only spelling `ParseTime` accepts: a string it reads as
      `n` is exactly `FormatTime(n)`, so no other padding or digits print
      the same time. */
  lemma ParseTimeOnlyReadsFormatTime(s: string, n: nat)
    requires ParseTime(s) == Some(n)
    ensures s == FormatTime(n)
  {
    ParseTimeShape(s, n);
    FormatTimeShape(n);
    var r := FormatTime(n);
    SameTimeFields(s, IndexOf(s, ':').value, r, |r| - 3, n);
  }

  /** The fields of `FormatTime(n)`. */
  lemma FormatTimeShape(n: nat)
    ensures var r := FormatTime(n); |r| >= 3 && TimeFields(r, |r| - 3, n)
  {
    var r := FormatTime(n);
    FormatTimeFields(n);
    assert r[|r| - 3 + 1..] == r[|r| - 2..];
  }

  /** Two times whose fields agree are the same string. */
  lemma SameTimeFields(s: string, k: nat, r: string, j: nat, n: nat)
    requires TimeFields(s, k, n) && TimeFields(r, j, n)
    ensures s == r
  {
    TwoDigitsInjective(s[k + 1..], r[j + 1..]);
    SameFields(s, k, r, j);
  }

  /** Two strings split by a separator into equal fields are equal. */
  lemma SameFields(s: string, k: nat, r: string, j: nat)
    requires k < |s| && j < |r| && s[k] == r[j]
    requires s[..k] == r[..j] && s[k + 1..] == r[j + 1..]
    ensures s == r
  {
    assert s == s[..k] + [s[k]] + s[k + 1..];
    assert r == r[..j] + [r[j]] + r[j + 1..];
  }

  /** Different times print differently. */
  lemma FormatTimeInjective(a: nat, b: nat)
    requires FormatTime(a) == FormatTime(b)
    ensures a == b
  {
    FormatTimeRoundTrip(a);
    FormatTimeRoundTrip(b);
  }

  // ---------------------------------------------------------------------
  // the focus timer's display
  // ---------------------------------------------------------------------

  /** `f` is `v` with as many '0's in front as make it `width` long, and no
      more. */
  ghost predicate ZeroPadded(f: string, v: string, width: nat) {
    && |f| == (if |v| >= width then |v| else width)
    && f[|f| - |v|..] == v
    && forall j :: 0 <= j < |f| - |v| ==> f[j] == '0'
  }

  /** The width of the minutes field of the timer display. */
  function MinutesWidth(m: int): nat {
    var v := IntToString(m);
    if |v| >= 2 then |v| else 2
  }

  /** The timer's `mm:ss`: each of `String(m)` and `String(s)` zero-padded to
      at least two characters, joined by ':'. */
  function ClockDisplay(m: int, s: int): (r: string)
    ensures |r| >= 5
    ensures ':' in r
    ensures var p := MinutesWidth(m);
      p < |r| && r[p] == ':'
      && ZeroPadded(r[..p], IntToString(m), 2) && ZeroPadded(r[p + 1..], IntToString(s), 2)
  {
    var a := PadStart(IntToString(m), 2, '0');
    var b := PadStart(IntToString(s), 2, '0');
    PadStartZeroPadded(IntToString(m));
    PadStartZeroPadded(IntToString(s));
    JoinFields(a, b);
    a + ":" + b
  }

  lemma PadStartZeroPadded(v: string)
    ensures ZeroPadded(PadStart(v, 2, '0'), v, 2)
  {
  }

  lemma JoinFields(a: string, b: string)
    ensures var r := a + ":" + b;
      |a| < |r| && r[|a|] == ':' && r[..|a|] == a && r[|a| + 1..] == b
  {
    var r := a + ":" + b;
    assert r[..|a|] == a;
    assert r[|a| + 1..] == b;
  }

  /** A zero-padded `String(i)` reads back as `i`: a negative number is
      never padded, since its sign already makes it two characters long. */
  lemma PaddedFieldReadsBack(f: string, i: int)
    requires ZeroPadded(f, IntToString(i), 2)
    ensures ParseInt(f) == Some(i)
  {
    var v := IntToString(i);
    IntToStringRoundTrip(i);
    if i >= 0 {
      assert v == NatToString(i);
      var z := |f| - |v|;
      assert f == Repeat('0', z) + v;
      assert PadStart(v, 2, '0') == f;
      PadZerosValue(v, 2);
      NatToStringRoundTrip(i);
      assert IsDigit(f[0]);
    } else {
      assert |v| >= 2;
      assert f == v;
    }
  }

  /** Both fields of the timer display read back as the integers shown,
      negative ones included. */
  lemma ClockFieldsReadBack(m: int, s: int)
    ensures var r := ClockDisplay(m, s); var p := MinutesWidth(m);
      ParseInt(r[..p]) == Some(m) && ParseInt(r[p + 1..]) == Some(s)
  {
    var r := ClockDisplay(m, s);
    var p := MinutesWidth(m);
    PaddedFieldReadsBack(r[..p], m);
    PaddedFieldReadsBack(r[p + 1..], s);
  }

  /** Reads a clock display back: digits, ':', digits. */
  function ParseClock(s: string): (r: Option<(nat, nat)>)
    ensures r.Some? ==> ':' in s
  {
    match IndexOf(s, ':')
    case None => None
    case Some(k) =>
      match (ParseNat(s[..k]), ParseNat(s[k + 1..]))
      case (Some(m), Some(sec)) => Some((m, sec))
      case _ => None
  }

  /** Zero-padding the decimal form of a natural number reads back as the number. */
  lemma PaddedReadsBack(n: nat)
    ensures var p := PadStart(NatToString(n), 2, '0');
      AllDigits(p) && ParseNat(p) == Some(n)
  {
    NatToStringRoundTrip(n);
    PadZerosValue(NatToString(n), 2);
  }

  /** For a well-formed reading the display shows both numbers and reads
      back as them. */
  lemma ClockDisplayRoundTrip(m: nat, s: nat)
    ensures ParseClock(ClockDisplay(m, s)) == Some((m, s))
  {
    assert IntToString(m) == NatToString(m) && IntToString(s) == NatToString(s);
    var a := PadStart(NatToString(m), 2, '0');
    var b := PadStart(NatToString(s), 2, '0');
    var r := a + [':'] + b;
    assert ClockDisplay(m, s) == r;
    PaddedReadsBack(m);
    PaddedReadsBack(s);
    DigitsHaveNo(a, ':');
    IndexOfJoin(a, ':', b);
    assert r[..|a|] == a;
    assert r[|a| + 1..] == b;
    assert ParseNat(r[..|a|]) == Some(m) && ParseNat(r[|a| + 1..]) == Some(s);
  }

  /** Below 100 minutes the display is always five characters, `mm:ss`. */
  lemma ClockDisplayFixedWidth(m: nat, s: nat)
    requires m < 100 && s < 60
    ensures |ClockDisplay(m, s)| == 5 && ClockDisplay(m, s)[2] == ':'
  {
    assert IntToString(m) == NatToString(m) && IntToString(s) == NatToString(s);
    SecondsFieldWidth(m);
    SecondsFieldWidth(s);
    var a := PadStart(NatToString(m), 2, '0');
    var r := a + ":" + PadStart(NatToString(s), 2, '0');
    assert ClockDisplay(m, s) == r;
    assert r[2] == ':';
  }

  /** A negative minute count, which the running timer can reach, prints
      with its minus sign and no padding, and does not read back as a time. */
  lemma NegativeMinutesDisplay()
    ensures ClockDisplay(-1, 59) == "-1:59"
    ensures ParseClock(ClockDisplay(-1, 59)).None?
  {
    assert NatToString(1) == "1";
    assert IntToString(-1) == "-1";
    assert NatToString(59) == NatToString(5) + [DigitChar(9)];
    assert DigitChar(9) == '9' && DigitChar(5) == '5';
    assert IntToString(59) == "59";
    var r := "-1:59";
    IndexOfJoin("-1", ':', "59");
    assert r == "-1" + [':'] + "59";
    assert r[..2] == "-1";
    assert !IsDigit('-');
  }
}

=== FILE: wrappers.dfy ===
/** The optional-value datatype shared by every module of the model. */
module Wrappers {

  /** A value that may be absent: the model's stand-in for JavaScript's `null`. */
  datatype Option<+T> = None | Some(value: T)
}
